=== FILE: README.md ===
# Warehouse robot decision layer in Dafny

This project models the decision layer of a grid-world warehouse robot. The robot
must walk to a pickup cell, PICK an item, walk to a dropoff cell and DROP it. Each
turn a policy receives an observation: the robot position, whether it carries the
item, the pickup and dropoff cells, battery and step count, and a square local
window of cell symbols centred on the robot, with `#` for walls. From that it
returns one of the actions N, S, E, W, WAIT, PICK or DROP.

Modelled here:

- **ReflexAgent** (`Reflex`). A stateless rule-priority policy. Its rules in order
  are PICK, then DROP, then a move towards the target read from the window, then a
  random valid action.
- **GreedyManhattanAgent** (`Greedy`). A policy that steps to a neighbour lowering
  the Manhattan distance to its goal. It keeps a bounded history of positions and
  an escape counter. The agent state is threaded explicitly through
  `Greedy.Decide`, which returns the action together with the next state.
- **RandomAgent** and the episode loop of `run_episodes` (`CompareAgents`).
- **`manhattan_distance`** and the episode success verdict (`RunEpisode`).
- Shared vocabulary (`World`) and the two ways of reading the window (`Window`).
  The first is the reflex agent's bounds-safe `is_blocked`. The second is the
  direct `!= '#'` test on the four neighbours of the centre, which every agent's
  valid-move helper uses.

How the model stands in for the runtime:

- **Randomness.** Every `random.choice` becomes `World.Choose(xs, rand)`, where
  `rand` is a caller-supplied oracle value. A single call of any `decide` draws at
  most once, so each decision takes one oracle value. The completeness lemmas
  (`Reflex.DecideComplete`, `Greedy.GreedyTiesReachable`,
  `Greedy.RandomValidMoveReaches`, `Greedy.EscapeReaches`,
  `Greedy.PursueFallbackReaches`,
  `Greedy.NoGoalFallbackReaches`, `CompareAgents.RandomOpenReachable` and
  `CompareAgents.RandomFallbackReachable`) show that every candidate is drawn
  for some oracle value. Together with the soundness contracts (among them
  `Reflex.DecideSound`, `Greedy.GreedyStepImproves`, `Greedy.EscapeTakesDraw`
  and `Greedy.PursueFallbackSound`), this shows the nondeterminism is exactly
  "some element of the candidate list".
- **The environment.** `warehouse_env.py` is not part of this model. The greedy
  agent reads two things from it: the wall predicate `_is_wall` and `start_pos`.
  Both become the parameter `Greedy.EnvView`. `MOVE_DELTAS` is fixed to N=(-1,0),
  S=(+1,0), W=(0,-1), E=(0,+1), matching the reflex agent's window offsets.
  `ACTIONS` is taken to be the seven-symbol vocabulary. Only membership in it
  matters.
- **The window.** A missing `local_grid` and an empty one are both the empty
  sequence, since the source tests them the same way (`if local_grid:`).

Where the code's own comments and the code disagree, the model follows the code:

- The docstring of `_get_direction_to_target` (src/warehouse_agent_reflex.py:71)
  and the comment at line 116 call the secondary candidates "perpendicular". The
  code builds them under exactly the guards of the primary list, so they offer
  the same directions and the secondary branch is dead. `Reflex.Steer` keeps the
  branch, and the verifier proves it unreachable with `assert false`.
- The comment "If all moves are blocked, wait" (src/warehouse_agent_reflex.py:61)
  marks a `return "WAIT"` that is never reached. The valid-move list always holds
  WAIT, PICK and DROP, so the random draw before it always succeeds.

Two facts about the greedy agent's code that the model keeps:

- PICK and DROP are checked only after the escape step. The code arms and
  consumes the escape counter first and returns the escape draw when it finds a
  move; it reaches the PICK/DROP checks only when the draw finds none
  (src/warehouse_agent_greedy.py:49-62).
- The fallback move reads the window first. It asks the environment's `_is_wall`
  only when the window offers nothing, and then about the neighbours of
  `history[-1]` (src/warehouse_agent_greedy.py:107-128). With `history_len == 0`
  the history stays empty, so the check looks around `start_pos` rather than the
  robot. The model keeps this (`Greedy.FallbackOrigin`). `Greedy.MovesAvoidWalls`
  therefore assumes a non-empty history.

## Model

| member | source | states |
|---|---|---|
| World.Choose | src/warehouse_agent_reflex.py:59 | a random choice returns an element of the list it draws from |
| World.ChooseReaches | src/warehouse_agent_greedy.py:92 | every element of a non-empty list is drawn for some value of the random source |
| World.NeighbourDist | src/warehouse_agent_greedy.py:76-83 | one move changes the Manhattan distance to any cell by exactly one, up or down |
| World.CloserByOne | src/warehouse_agent_greedy.py:76-88 | a move that lowers the distance to the goal lowers it by exactly one, so improving moves all tie |
| Window.OpenAmong | src/warehouse_agent_greedy.py:108-119 | the four neighbour tests keep exactly the listed directions whose window cell is not `#`, in the listed order |
| Window.OpenMoves | src/warehouse_agent_greedy.py:108-119 | the direct neighbour test lists exactly the directions whose window cell is not `#` |
| Window.Blocked | src/warehouse_agent_reflex.py:85-99 | `is_blocked`: a neighbour whose index falls outside the window counts as blocked, so with an empty window every direction is blocked |
| Window.WallAt | src/warehouse_agent_greedy.py:109-119 | the direct `#` test on a neighbour of the centre agrees with `is_blocked` on a square window of side at least 3 |
| Reflex.Candidates | src/warehouse_agent_reflex.py:102-110 | a candidate list holds exactly the listed directions that are towards the target and unblocked, each with the list's weight |
| Reflex.AnyOpen | src/warehouse_agent_reflex.py:132 | the last-resort list holds exactly the unblocked directions |
| Reflex.MaxByWeight | src/warehouse_agent_reflex.py:113-114 | `max` by weight returns a list element of greatest weight, and every element before it weighs strictly less, so it is the first of greatest weight; when all weights tie, it is the first element |
| Reflex.Primary | src/warehouse_agent_reflex.py:102-110 | the primary list holds exactly the unblocked directions towards the target, each with weight 2 |
| Reflex.Secondary | src/warehouse_agent_reflex.py:116-125 | the secondary list holds exactly the unblocked directions towards the target, each with weight 1 |
| Reflex.SecondaryMatchesPrimary | src/warehouse_agent_reflex.py:102-129 | the secondary list offers exactly the directions of the primary list |
| Reflex.CandidatesEmpty | src/warehouse_agent_reflex.py:102-110 | a candidate list is empty exactly when no direction of its order is both towards the target and unblocked |
| Reflex.NoPrimaryNoSecondary | src/warehouse_agent_reflex.py:102-129 | the secondary list is empty whenever the primary list is, so the secondary branch is never taken |
| Reflex.PrimaryPick | src/warehouse_agent_reflex.py:102-114 | the primary pick is an unblocked direction towards the target; there is none exactly when the primary list is empty; otherwise it is the list's first entry |
| Reflex.LastResort | src/warehouse_agent_reflex.py:131-136 | the last resort returns an unblocked direction, and None exactly when all four are blocked |
| Reflex.Steer | src/warehouse_agent_reflex.py:102-136 | away from the target, the result is the first primary candidate when there is one, else the last resort's draw; it is None exactly when all four directions are blocked |
| Reflex.DirectionToTarget | src/warehouse_agent_reflex.py:64-136 | a returned direction is unblocked; None is returned exactly when the robot is at the target or all four directions are blocked |
| Reflex.ReducesIffCloser | src/warehouse_agent_reflex.py:77-110 | a direction passes the primary guard on the row/column delta exactly when it lowers the Manhattan distance to the target by one |
| Reflex.CandidatesHead | src/warehouse_agent_reflex.py:102-110 | the head of a candidate list is the first listed direction that is towards the target and unblocked |
| Reflex.FirstTowardWins | src/warehouse_agent_reflex.py:102-114 | when an unblocked direction towards the target exists, the result is the first such in N, S, W, E order whatever the random source, and it lowers the distance by one |
| Reflex.Moves | src/warehouse_agent_reflex.py:146-156 | the move actions built hold exactly the moves in the listed directions |
| Reflex.ValidMoves | src/warehouse_agent_reflex.py:138-158 | the valid-move list always holds WAIT, PICK and DROP, and holds a move exactly when its window cell is not `#` |
| Reflex.Decide | src/warehouse_agent_reflex.py:19-62 | PICK at the pickup cell when not carrying; DROP at the dropoff cell when carrying; a returned move never enters a `#` cell |
| Reflex.DecideSound | src/warehouse_agent_reflex.py:30-62 | every decision lies in the rule-priority option set: PICK, DROP, the first open move towards the target, a random open move, or a random valid action |
| Reflex.DecideComplete | src/warehouse_agent_reflex.py:50-59 | every action in the option set is taken for some value of the random source |
| Greedy.Armed | src/warehouse_agent_greedy.py:43-45 | a remembered position re-arms the escape counter to the full duration; otherwise it is untouched; either way it stays in the invariant's range |
| Greedy.Init | src/warehouse_agent_greedy.py:24-30 | a new agent has an empty history and a counter of 0, which satisfy the state invariant for every configuration |
| Greedy.Remember | src/warehouse_agent_greedy.py:47 | appending to the bounded deque keeps the newest `history_len` positions, and the current position is last |
| Greedy.RandomValidMoveReaches | src/warehouse_agent_greedy.py:107-130 | every open window neighbour, or, when the window offers none, every non-wall neighbour of the fallback origin, is drawn for some value of the random source |
| Greedy.FreeIn | src/warehouse_agent_greedy.py:121-128 | the environment fallback lists exactly the directions whose neighbour is not a wall |
| Greedy.RandomValidMove | src/warehouse_agent_greedy.py:102-130 | returns None exactly when neither the window nor the environment check around `history[-1]` (else `start_pos`) finds a free neighbour; otherwise the move is free by whichever check supplied it |
| Greedy.Scan | src/warehouse_agent_greedy.py:74-88 | the `best_moves` loop only ever collects non-wall moves of the scan order |
| Greedy.ScanKeepsImproving | src/warehouse_agent_greedy.py:72-88 | the best-moves loop ends with exactly the non-wall moves that improve on the current distance, in scan order |
| Greedy.BestMoves | src/warehouse_agent_greedy.py:70-88 | `best_moves` holds every non-wall move that strictly lowers the distance, ties kept, and each lowers it by exactly one |
| Greedy.Pursue | src/warehouse_agent_greedy.py:56-100 | the part of `decide` after the escape check leaves the state alone, PICKs at pickup when not carrying, and otherwise DROPs at dropoff when carrying |
| Greedy.Decide | src/warehouse_agent_greedy.py:32-100 | the next history is the deque after appending the current position (the newest `history_len` positions), so it is at most `history_len` long with the current position last; with `escape_duration > 0` a revisit leaves the counter at duration - 1; otherwise a positive counter drops by exactly one and a non-positive one stays |
| Greedy.TwoStepLoopRearms | src/warehouse_agent_greedy.py:20-51 | with `history_len >= 2` and a positive duration, a return to a position left two calls earlier (A, B, A) re-arms the escape, leaving the counter at duration - 1 |
| Greedy.RememberKeepsPrevious | src/warehouse_agent_greedy.py:28-47 | a deque with room for two positions still holds the position appended before the newest |
| Greedy.InvPreserved | src/warehouse_agent_greedy.py:28-51 | every call preserves the history bound and the counter range; with a counter in [0, escape_duration] it stays there |
| Greedy.StandStillRearms | src/warehouse_agent_greedy.py:44-51 | two calls at the same position (after PICK, WAIT or a blocked move) re-arm the escape, leaving the counter at duration - 1 |
| Greedy.CalmPicksAndDrops | src/warehouse_agent_greedy.py:49-62 | with the counter at 0 after the check, or no escape move found, the agent PICKs at pickup when not carrying and DROPs at dropoff when carrying |
| Greedy.EscapeMovesToOpenCell | src/warehouse_agent_greedy.py:49-54 | during an escape, with an open neighbour in the window, the agent moves into an open window cell |
| Greedy.EscapeTakesDraw | src/warehouse_agent_greedy.py:49-54 | during an escape, whatever the window holds, a move found by `_random_valid_move` (from the window or from the wall predicate) is the action returned |
| Greedy.GreedyStepImproves | src/warehouse_agent_greedy.py:72-92 | when goal-seeking with improving moves, the returned move is one of `best_moves`, into a non-wall cell one step closer to the goal |
| Greedy.EscapeReaches | src/warehouse_agent_greedy.py:49-54 | during an escape, every move the random valid move can offer is taken for some value of the random source |
| Greedy.NoGoalFallbackReaches | src/warehouse_agent_greedy.py:64-69 | with no goal and no free neighbour anywhere, every action of the vocabulary is taken for some value of the random source |
| Greedy.PursueFallbackReaches | src/warehouse_agent_greedy.py:64-97 | with no goal, or no improving move, every move `_random_valid_move` can offer is taken for some value of the random source |
| Greedy.GreedyTiesReachable | src/warehouse_agent_greedy.py:88-92 | every tied best move is taken for some value of the random source |
| Greedy.WaitOnlyWhenStuck | src/warehouse_agent_greedy.py:90-100 | if WAIT is returned, the random valid move yielded None and, given a goal, no move improves; conversely, away from PICK/DROP duties, with a goal, no improving move and no valid move, the agent WAITs |
| Greedy.PursueWaitsOnlyWhenStuck | src/warehouse_agent_greedy.py:56-100 | the goal-seeking part returns WAIT exactly when, past the PICK/DROP checks with a goal, no move improves and the random valid move yields None |
| Greedy.PursueFallbackSound | src/warehouse_agent_greedy.py:64-100 | with no goal or no improving move, the agent returns the move `_random_valid_move` draws; with none drawn it WAITs when it has a goal and draws from the whole action list when it has none |
| Greedy.RandomMoveAvoidsWalls | src/warehouse_agent_greedy.py:102-130 | with a window that agrees with the wall predicate and the fallback made from the robot's cell, a random valid move avoids walls, and none is found only when all four neighbours are walls |
| Greedy.PursueAvoidsWalls | src/warehouse_agent_greedy.py:56-100 | under the same agreement, the goal-seeking part moves into a wall only when all four neighbours are walls |
| Greedy.MovesAvoidWalls | src/warehouse_agent_greedy.py:49-100 | with a non-empty history and a window that agrees with the wall predicate, a returned move enters a wall only if all four neighbours are walls |
| CompareAgents.RandomDecide | src/compare_agents.py:75-93 | with a window that has an open neighbour, the result is a move into an open neighbour, never into `#` |
| CompareAgents.RandomOpenReachable | src/compare_agents.py:78-91 | every open neighbour is drawn for some value of the random source |
| CompareAgents.RandomFallbackReachable | src/compare_agents.py:92-93 | with no window or all four neighbours `#`, every action of the vocabulary is drawn for some value of the random source |
| CompareAgents.EpisodeLoop | src/compare_agents.py:40-51 | an episode takes at most `max_steps` steps, at least one when `max_steps >= 1`, and stops at the first terminated or truncated step; it reports that step's terminated flag and battery, or the reset battery when no step ran |
| CompareAgents.RunEpisodes | src/compare_agents.py:30-58 | all lists have one entry per episode; each length is within bounds, no step of an episode before its last one ended it, and an episode shorter than `max_steps` ended at its last step; success is the last step's terminated flag; the final battery is the last step's; the success count equals the number of true entries |
| RunEpisode.ManhattanDistance | src/run_episode.py:10-14 | 0 when either position is None; for two known positions it is 0 exactly when they are equal |
| RunEpisode.ManhattanSymmetric | src/run_episode.py:12-14 | the distance is symmetric in its arguments |
| RunEpisode.Success | src/run_episode.py:107 | success needs a known dropoff and an empty-handed robot |
| RunEpisode.SuccessIsDeliveredAtDropoff | src/run_episode.py:107 | success holds exactly when the robot is not carrying and is at distance 0 from a known dropoff |

## Left out

- `warehouse_env.py` is not part of this model: `reset`, `step`, battery, reward, termination and rendering are not modelled. The wall predicate and start position are parameters, and the move deltas are fixed as above.
- Plotting, animation and printing are left out, because they are I/O: `compare_and_plot`, `replay_animation`, the `test_agent` demos, and `run_episode`'s frame and metric collection.
- `compare_reflex_vs_greedy.py` is left out. It is glue and plotting, it imports a class that does not exist, and it calls `run_episode` with a signature that does not exist.
- `ReflexAgent._random_action` is left out, because `decide` never calls it.
- Integer action codes (`Action = Union[int, str]`) are left out; only the seven symbols are modelled.
- CompareAgents.RunEpisodes: `total_rewards` and the float `success_rate` are left out, because they are floating-point. The integer success count they derive from is kept, so three of the four lists are modelled.
- Reflex.Decide: requires a square window of side at least 3, even on paths that never read the window directly. On smaller windows the source's `_get_valid_moves` indexes past the end or wraps around through negative indices.
- Greedy.Decide, Greedy.RandomValidMove and CompareAgents.RandomDecide: require the window to be missing or square with side at least 3. A non-empty smaller window makes the source's direct neighbour test raise `IndexError`. The requirement holds even on paths that never call `_random_valid_move` or read the window, where the source returns normally whatever the window.
- Non-square windows are not modelled. The observation builder promises a square window.
- Greedy.Config: `history_len` is a `nat`, so the `ValueError` that `deque(maxlen=history_len)` raises for a negative length is not modelled.

=== FILE: compare_agents.dfy ===
/** The baseline RandomAgent and the episode loop of `run_episodes`.

    The loop sees the environment and the agent only through a `Driver`:
    the battery reported by `reset` for episode `i`, and what `step`
    reports for the `t`-th action of episode `i`. Rewards are not modelled.
 */
module CompareAgents {
  import opened World
  import opened Window

  // ---------------------------------------------------------------------
  // RandomAgent

  /** `RandomAgent.decide`: a random open neighbour from the local window,
      or any action at all when the window is missing or fully walled. */
  function RandomDecide(g: seq<string>, rand: nat): (a: Action)
    requires Usable(g)
    ensures |g| > 0 && (exists d :: !WallAt(g, d)) ==> a.Move? && !WallAt(g, a.dir)
  {
    if |g| > 0 && |OpenMoves(g)| > 0 then Move(Choose(OpenMoves(g), rand))
    else Choose(Actions, rand)
  }

  /** Every open neighbour is drawn for some value of the random source. */
  lemma RandomOpenReachable(g: seq<string>, d: Dir) returns (rand: nat)
    requires Full(g)
    requires !WallAt(g, d)
    ensures RandomDecide(g, rand) == Move(d)
  {
    rand := ChooseReaches(OpenMoves(g), d);
  }

  /** With no window, or walls on all four sides, every action is drawn for
      some value of the random source. */
  lemma RandomFallbackReachable(g: seq<string>, a: Action) returns (rand: nat)
    requires Usable(g)
    requires |g| == 0 || forall d :: WallAt(g, d)
    ensures RandomDecide(g, rand) == a
  {
    ActionsComplete(a);
    rand := ChooseReaches(Actions, a);
  }

  // ---------------------------------------------------------------------
  // run_episodes

  /** What `env.step` reports after one action. */
  datatype StepReport = StepReport(terminated: bool, truncated: bool, battery: int)

  /** The environment and agent of every episode, seen from the loop. */
  datatype Driver = Driver(resetBattery: nat -> int, step: (nat, nat) -> StepReport)

  predicate Ends(r: StepReport) {
    r.terminated || r.truncated
  }

  /** The lists `run_episodes` returns, and the count behind `success_rate`. */
  datatype Stats = Stats(successes: seq<bool>, lengths: seq<nat>, finalBatteries: seq<int>, successCount: nat)

  function Clamp(n: int): nat {
    if n < 0 then 0 else n
  }

  function TrueCount(bs: seq<bool>): nat {
    |set i | 0 <= i < |bs| && bs[i]|
  }

  /** The body of the episode loop: step until the episode ends or
      `maxSteps` actions have been taken. */
  method EpisodeLoop(dr: Driver, i: nat, maxSteps: int) returns (terminated: bool, steps: nat, battery: int)
    ensures steps <= Clamp(maxSteps)
    ensures maxSteps >= 1 ==> steps >= 1
    ensures forall t :: 0 <= t < steps - 1 ==> !Ends(dr.step(i, t))
    ensures 0 < steps < maxSteps ==> Ends(dr.step(i, steps - 1))
    ensures steps == 0 ==> !terminated && battery == dr.resetBattery(i)
    ensures steps > 0 ==>
      terminated == dr.step(i, steps - 1).terminated && battery == dr.step(i, steps - 1).battery
  {
    terminated := false;
    battery := dr.resetBattery(i);
    steps := 0;
    while steps < maxSteps
      invariant steps <= Clamp(maxSteps)
      invariant forall t :: 0 <= t < steps - 1 ==> !Ends(dr.step(i, t))
      invariant steps > 0 ==> !Ends(dr.step(i, steps - 1))
      invariant steps == 0 ==> !terminated && battery == dr.resetBattery(i)
      invariant steps > 0 ==>
        terminated == dr.step(i, steps - 1).terminated && battery == dr.step(i, steps - 1).battery
      decreases maxSteps - steps
    {
      var report := dr.step(i, steps);
      terminated := report.terminated;
      battery := report.battery;
      steps := steps + 1;
      if Ends(report) {
        return;
      }
    }
  }

  /** What the loop records for episode `i`, given the `steps` it ran:
      no earlier step ended the episode, a run shorter than `maxSteps`
      ended at its last step, and the success flag and battery are that
      step's (the reset battery when no step ran). */
  predicate Recorded(dr: Driver, i: nat, maxSteps: int, success: bool, steps: nat, battery: int) {
    && steps <= Clamp(maxSteps) && (maxSteps >= 1 ==> steps >= 1)
    && (forall t :: 0 <= t && t + 1 < steps ==> !Ends(dr.step(i, t)))
    && (0 < steps < maxSteps ==> Ends(dr.step(i, steps - 1)))
    && (success <==> steps >= 1 && dr.step(i, steps - 1).terminated)
    && battery == (if steps == 0 then dr.resetBattery(i) else dr.step(i, steps - 1).battery)
  }

  lemma TrueCountAppend(bs: seq<bool>, b: bool)
    ensures TrueCount(bs + [b]) == TrueCount(bs) + (if b then 1 else 0)
  {
    var before := set i | 0 <= i < |bs| && bs[i];
    var after := set i | 0 <= i < |bs + [b]| && (bs + [b])[i];
    if b {
      assert after == before + {|bs|};
    } else {
      assert after == before;
    }
  }

  /** `run_episodes`: `n` episodes of at most `maxSteps` steps each. */
  method RunEpisodes(dr: Driver, n: int, maxSteps: int) returns (stats: Stats)
    ensures |stats.successes| == |stats.lengths| == |stats.finalBatteries| == Clamp(n)
    ensures forall i :: 0 <= i < |stats.lengths| ==>
      Recorded(dr, i, maxSteps, stats.successes[i], stats.lengths[i], stats.finalBatteries[i])
    ensures stats.successCount == TrueCount(stats.successes)
  {
    var successes: seq<bool> := [];
    var lengths: seq<nat> := [];
    var batteries: seq<int> := [];
    var count: nat := 0;
    var i: nat := 0;
    while i < n
      invariant i <= Clamp(n)
      invariant |successes| == |lengths| == |batteries| == i
      invariant forall j :: 0 <= j < i ==> Recorded(dr, j, maxSteps, successes[j], lengths[j], batteries[j])
      invariant count == TrueCount(successes)
      decreases n - i
    {
      var terminated, steps, battery := EpisodeLoop(dr, i, maxSteps);
      assert Recorded(dr, i, maxSteps, terminated, steps, battery);
      TrueCountAppend(successes, terminated);
      successes := successes + [terminated];
      lengths := lengths + [steps];
      batteries := batteries + [battery];
      if terminated {
        count := count + 1;
      }
      i := i + 1;
    }
    stats := Stats(successes, lengths, batteries, count);
  }
}

=== FILE: greedy.dfy ===
/** GreedyManhattanAgent: steps to a neighbour that lowers the Manhattan
    distance to the current goal, with a loop detector. The agent keeps a
    bounded history of recent positions; arriving at a remembered position
    arms a short escape during which it moves at random.

    The environment object is reduced to what the agent reads from it: the
    boundary-safe wall predicate `_is_wall` and the start position.
 */
module Greedy {
  import opened World
  import opened Window

  /** `move_actions`: the order in which the agent scans the four moves. */
  const MoveOrder: seq<Dir> := [N, E, S, W]

  /** The constructor parameters `history_len` and `escape_steps`. */
  datatype Config = Config(historyLen: nat, escapeDuration: int)

  /** What the agent reads from the environment besides the observation. */
  datatype EnvView = EnvView(isWall: Pos -> bool, startPos: Pos)

  /** The agent's memory: recent positions, oldest first, and the number of
      escape steps remaining. */
  datatype State = State(history: seq<Pos>, escape: int)

  datatype Decision = Decision(action: Action, next: State)

  /** The escape counter lies between 0 and the configured duration; a
      non-positive duration is the only value it takes besides 0. */
  predicate CounterInRange(e: int, duration: int) {
    e == 0 || e == duration || 0 < e < duration
  }

  predicate Inv(cfg: Config, s: State) {
    |s.history| <= cfg.historyLen && CounterInRange(s.escape, cfg.escapeDuration)
  }

  /** A freshly constructed agent: empty history, not escaping. */
  function Init(): (s: State)
    ensures forall cfg :: Inv(cfg, s)
  {
    State([], 0)
  }

  /** `deque.append` on a deque of capacity `cap`: the newest `cap` positions
      of `h + [p]` survive. */
  function Remember(h: seq<Pos>, p: Pos, cap: nat): (r: seq<Pos>)
    ensures |r| == if |h| < cap then |h| + 1 else cap
    ensures cap > 0 ==> r[|r| - 1] == p
    ensures forall i :: 0 <= i < |r| ==> r[i] == (h + [p])[|h| + 1 - |r| + i]
  {
    var full := h + [p];
    if |full| <= cap then full else full[|full| - cap..]
  }

  /** The escape counter after the loop check: re-armed to the full
      duration when the position was seen recently. */
  function Armed(cfg: Config, s: State, p: Pos): (e: int)
    ensures p in s.history ==> e == cfg.escapeDuration
    ensures p !in s.history ==> e == s.escape
    ensures Inv(cfg, s) ==> CounterInRange(e, cfg.escapeDuration)
  {
    if p in s.history then cfg.escapeDuration else s.escape
  }

  /** Directions of `order` whose neighbour of `p` is not a wall, in that order. */
  function FreeIn(order: seq<Dir>, p: Pos, isWall: Pos -> bool): (r: seq<Dir>)
    ensures forall d :: d in r <==> d in order && !isWall(Neighbour(p, d))
    decreases |order|
  {
    if order == [] then []
    else (if !isWall(Neighbour(p, order[0])) then [order[0]] else []) + FreeIn(order[1..], p, isWall)
  }

  /** Where the environment check of `_random_valid_move` looks from: the
      newest remembered position, or the start position when none is. */
  function FallbackOrigin(h: seq<Pos>, env: EnvView): Pos {
    if |h| > 0 then h[|h| - 1] else env.startPos
  }

  /** `_random_valid_move`: a random open neighbour from the local window, or
      from the environment's wall predicate when the window offers none. */
  function RandomValidMove(g: seq<string>, h: seq<Pos>, env: EnvView, rand: nat): (r: Option<Dir>)
    requires Usable(g)
    ensures r.None? <==>
      (|g| == 0 || forall d :: WallAt(g, d))
      && forall d :: env.isWall(Neighbour(FallbackOrigin(h, env), d))
    ensures r.Some? && |g| > 0 && (exists d :: !WallAt(g, d)) ==> !WallAt(g, r.value)
    ensures r.Some? && (|g| == 0 || forall d :: WallAt(g, d)) ==>
      !env.isWall(Neighbour(FallbackOrigin(h, env), r.value))
  {
    EveryDirListed(MoveOrder);
    var local := if |g| > 0 then OpenMoves(g) else [];
    var valid := if |local| > 0 then local else FreeIn(MoveOrder, FallbackOrigin(h, env), env.isWall);
    if |valid| > 0 then Some(Choose(valid, rand)) else None
  }

  /** Every non-wall move of `order` that brings `p` closer to `goal`, in order. */
  function Improving(order: seq<Dir>, p: Pos, goal: Pos, isWall: Pos -> bool): (r: seq<Dir>)
    ensures forall d :: d in r <==>
      d in order && !isWall(Neighbour(p, d)) && Dist(Neighbour(p, d), goal) < Dist(p, goal)
    decreases |order|
  {
    if order == [] then []
    else
      var q := Neighbour(p, order[0]);
      (if !isWall(q) && Dist(q, goal) < Dist(p, goal) then [order[0]] else [])
      + Improving(order[1..], p, goal, isWall)
  }

  /** The loop of `decide` that builds `best_moves`: a strictly smaller
      distance restarts the list, an equal one that still improves on
      `cur` joins it. */
  function Scan(order: seq<Dir>, p: Pos, goal: Pos, isWall: Pos -> bool, cur: int,
                bestDist: int, best: seq<Dir>): (r: seq<Dir>)
    ensures forall d :: d in r ==> d in best || (d in order && !isWall(Neighbour(p, d)))
    decreases |order|
  {
    if order == [] then best
    else
      var m := order[0];
      var q := Neighbour(p, m);
      if isWall(q) then Scan(order[1..], p, goal, isWall, cur, bestDist, best)
      else
        var d := Dist(q, goal);
        if d < bestDist then Scan(order[1..], p, goal, isWall, cur, d, [m])
        else if d == bestDist && d < cur then Scan(order[1..], p, goal, isWall, cur, bestDist, best + [m])
        else Scan(order[1..], p, goal, isWall, cur, bestDist, best)
  }

  /** Since a move changes the distance by exactly one, the scan keeps every
      improving move: the list is empty while the best distance is still
      `cur`, and holds the moves reaching `cur - 1` once it is not. */
  lemma {:induction false} ScanKeepsImproving(order: seq<Dir>, p: Pos, goal: Pos, isWall: Pos -> bool,
                                              bestDist: int, best: seq<Dir>)
    requires (best == [] && bestDist == Dist(p, goal)) || (best != [] && bestDist + 1 == Dist(p, goal))
    ensures Scan(order, p, goal, isWall, Dist(p, goal), bestDist, best)
         == best + Improving(order, p, goal, isWall)
    decreases |order|
  {
    if order != [] {
      var m := order[0];
      var q := Neighbour(p, m);
      var cur := Dist(p, goal);
      NeighbourDist(p, m, goal);
      var rest := Improving(order[1..], p, goal, isWall);
      var scan := Scan(order, p, goal, isWall, cur, bestDist, best);
      if isWall(q) || Dist(q, goal) >= cur {
        assert Improving(order, p, goal, isWall) == rest;
        assert scan == Scan(order[1..], p, goal, isWall, cur, bestDist, best);
        ScanKeepsImproving(order[1..], p, goal, isWall, bestDist, best);
      } else {
        assert Improving(order, p, goal, isWall) == [m] + rest;
        if Dist(q, goal) < bestDist {
          assert scan == Scan(order[1..], p, goal, isWall, cur, Dist(q, goal), [m]);
          ScanKeepsImproving(order[1..], p, goal, isWall, Dist(q, goal), [m]);
        } else {
          assert scan == Scan(order[1..], p, goal, isWall, cur, bestDist, best + [m]);
          ScanKeepsImproving(order[1..], p, goal, isWall, bestDist, best + [m]);
          assert best + [m] + rest == best + ([m] + rest);
        }
      }
    }
  }

  /** `best_moves`: exactly the non-wall moves that lower the distance to
      `goal`, each by one, ties kept. */
  function BestMoves(p: Pos, goal: Pos, isWall: Pos -> bool): (r: seq<Dir>)
    ensures forall d :: d in r <==> !isWall(Neighbour(p, d)) && Dist(Neighbour(p, d), goal) < Dist(p, goal)
    ensures forall d :: d in r ==> Dist(Neighbour(p, d), goal) + 1 == Dist(p, goal)
  {
    EveryDirListed(MoveOrder);
    ScanKeepsImproving(MoveOrder, p, goal, isWall, Dist(p, goal), []);
    CloserByOne(p, goal);
    Scan(MoveOrder, p, goal, isWall, Dist(p, goal), Dist(p, goal), [])
  }

  /** The goal-seeking part of `decide`, reached outside escape mode or when
      the escape draw found no move. */
  function Pursue(env: EnvView, obs: Observation, h: seq<Pos>, counter: int, rand: nat): (r: Decision)
    requires Usable(obs.localGrid)
    ensures r.next == State(h, counter)
    ensures obs.AtPickupEmpty() ==> r.action == Pick
    ensures !obs.AtPickupEmpty() && obs.AtDropoffLoaded() ==> r.action == Drop
  {
    var next := State(h, counter);
    if obs.AtPickupEmpty() then Decision(Pick, next)
    else if obs.AtDropoffLoaded() then Decision(Drop, next)
    else match obs.Target()
      case None =>
        var mv := RandomValidMove(obs.localGrid, h, env, rand);
        Decision(if mv.Some? then Move(mv.value) else Choose(Actions, rand), next)
      case Some(goal) =>
        var best := BestMoves(obs.robotPos, goal, env.isWall);
        if |best| > 0 then Decision(Move(Choose(best, rand)), next)
        else
          var mv := RandomValidMove(obs.localGrid, h, env, rand);
          Decision(if mv.Some? then Move(mv.value) else Wait, next)
  }

  /** `GreedyManhattanAgent.decide`: the action and the agent's next state. */
  function Decide(cfg: Config, env: EnvView, s: State, obs: Observation, rand: nat): (r: Decision)
    requires Usable(obs.localGrid)
    ensures r.next.history == Remember(s.history, obs.robotPos, cfg.historyLen)
    ensures |r.next.history| <= cfg.historyLen
    ensures cfg.historyLen > 0 ==>
      |r.next.history| > 0 && r.next.history[|r.next.history| - 1] == obs.robotPos
    ensures obs.robotPos in s.history && cfg.escapeDuration > 0 ==>
      r.next.escape == cfg.escapeDuration - 1
    ensures obs.robotPos !in s.history && s.escape > 0 ==> r.next.escape == s.escape - 1
    ensures obs.robotPos !in s.history && s.escape <= 0 ==> r.next.escape == s.escape
  {
    var p := obs.robotPos;
    var armed := Armed(cfg, s, p);
    var h := Remember(s.history, p, cfg.historyLen);
    if armed > 0 then
      var mv := RandomValidMove(obs.localGrid, h, env, rand);
      if mv.Some? then Decision(Move(mv.value), State(h, armed - 1))
      else Pursue(env, obs, h, armed - 1, rand)
    else Pursue(env, obs, h, armed, rand)
  }

  /** The history the call leaves behind, as a function of its inputs. */
  function NextHistory(cfg: Config, s: State, obs: Observation): seq<Pos> {
    Remember(s.history, obs.robotPos, cfg.historyLen)
  }

  // ---------------------------------------------------------------------
  // Properties of the decision.

  /** Every call keeps the history bound and the counter range. */
  lemma InvPreserved(cfg: Config, env: EnvView, s: State, obs: Observation, rand: nat)
    requires Usable(obs.localGrid)
    requires Inv(cfg, s)
    ensures Inv(cfg, Decide(cfg, env, s, obs, rand).next)
    ensures 0 <= s.escape <= cfg.escapeDuration ==>
      0 <= Decide(cfg, env, s, obs, rand).next.escape <= cfg.escapeDuration
  {
  }

  /** Staying put (after PICK, WAIT or a move into a wall) re-arms the escape. */
  lemma StandStillRearms(cfg: Config, env: EnvView, s: State, obs1: Observation, obs2: Observation,
                         rand1: nat, rand2: nat)
    requires Usable(obs1.localGrid) && Usable(obs2.localGrid)
    requires cfg.historyLen > 0 && cfg.escapeDuration > 0
    requires obs2.robotPos == obs1.robotPos
    ensures var s1 := Decide(cfg, env, s, obs1, rand1).next;
            Decide(cfg, env, s1, obs2, rand2).next.escape == cfg.escapeDuration - 1
  {
    var s1 := Decide(cfg, env, s, obs1, rand1).next;
    assert obs2.robotPos in s1.history;
  }

  /** A two-step loop A, B, A is noticed: with room for two positions, the
      return to A re-arms the escape. */
  lemma TwoStepLoopRearms(cfg: Config, env: EnvView, s: State,
                          obs1: Observation, obs2: Observation, obs3: Observation,
                          rand1: nat, rand2: nat, rand3: nat)
    requires Usable(obs1.localGrid) && Usable(obs2.localGrid) && Usable(obs3.localGrid)
    requires cfg.historyLen >= 2 && cfg.escapeDuration > 0
    requires obs3.robotPos == obs1.robotPos
    ensures var s1 := Decide(cfg, env, s, obs1, rand1).next;
            var s2 := Decide(cfg, env, s1, obs2, rand2).next;
            Decide(cfg, env, s2, obs3, rand3).next.escape == cfg.escapeDuration - 1
  {
    var s1 := Decide(cfg, env, s, obs1, rand1).next;
    var s2 := Decide(cfg, env, s1, obs2, rand2).next;
    RememberKeepsPrevious(s.history, obs1.robotPos, obs2.robotPos, cfg.historyLen);
    assert obs3.robotPos in s2.history;
  }

  /** A deque with room for two still holds the position before the newest. */
  lemma RememberKeepsPrevious(h: seq<Pos>, a: Pos, b: Pos, cap: nat)
    requires cap >= 2
    ensures a in Remember(Remember(h, a, cap), b, cap)
  {
    var h1 := Remember(h, a, cap);
    var h2 := Remember(h1, b, cap);
    assert h2[|h2| - 2] == (h1 + [b])[|h1| - 1];
  }

  /** Outside escape mode, or when the escape draw finds nothing, the PICK and
      DROP rules come first. */
  lemma CalmPicksAndDrops(cfg: Config, env: EnvView, s: State, obs: Observation, rand: nat)
    requires Usable(obs.localGrid)
    requires Armed(cfg, s, obs.robotPos) <= 0
          || RandomValidMove(obs.localGrid, NextHistory(cfg, s, obs), env, rand).None?
    ensures obs.AtPickupEmpty() ==> Decide(cfg, env, s, obs, rand).action == Pick
    ensures obs.AtDropoffLoaded() ==> Decide(cfg, env, s, obs, rand).action == Drop
  {
  }

  /** During an escape, with an open neighbour in the window, the agent moves
      to an open window cell whatever its goal. */
  lemma EscapeMovesToOpenCell(cfg: Config, env: EnvView, s: State, obs: Observation, rand: nat)
    requires Usable(obs.localGrid)
    requires Armed(cfg, s, obs.robotPos) > 0
    requires |obs.localGrid| > 0 && exists d :: !WallAt(obs.localGrid, d)
    ensures var a := Decide(cfg, env, s, obs, rand).action;
            a.Move? && !WallAt(obs.localGrid, a.dir)
  {
  }

  /** During an escape, whatever the window holds, a move found by
      `_random_valid_move` (from the window or, failing that, from the wall
      predicate) is the action returned. */
  lemma EscapeTakesDraw(cfg: Config, env: EnvView, s: State, obs: Observation, rand: nat)
    requires Usable(obs.localGrid)
    requires Armed(cfg, s, obs.robotPos) > 0
    ensures var mv := RandomValidMove(obs.localGrid, NextHistory(cfg, s, obs), env, rand);
            mv.Some? ==> Decide(cfg, env, s, obs, rand).action == Move(mv.value)
  {
  }

  /** Goal-seeking with an improving move: the agent takes one of the best
      moves, into a free cell one step closer to the goal. */
  lemma GreedyStepImproves(cfg: Config, env: EnvView, s: State, obs: Observation, rand: nat, goal: Pos)
    requires Usable(obs.localGrid)
    requires Armed(cfg, s, obs.robotPos) <= 0
          || RandomValidMove(obs.localGrid, NextHistory(cfg, s, obs), env, rand).None?
    requires !obs.AtPickupEmpty() && !obs.AtDropoffLoaded() && obs.Target() == Some(goal)
    requires BestMoves(obs.robotPos, goal, env.isWall) != []
    ensures var a := Decide(cfg, env, s, obs, rand).action;
            && a.Move?
            && a.dir in BestMoves(obs.robotPos, goal, env.isWall)
            && !env.isWall(Neighbour(obs.robotPos, a.dir))
            && Dist(Neighbour(obs.robotPos, a.dir), goal) + 1 == Dist(obs.robotPos, goal)
  {
  }

  /** Ties are broken at random: every best move is taken for some value of
      the random source. */
  lemma GreedyTiesReachable(cfg: Config, env: EnvView, s: State, obs: Observation, goal: Pos, d: Dir)
    returns (rand: nat)
    requires Usable(obs.localGrid)
    requires Armed(cfg, s, obs.robotPos) <= 0
    requires !obs.AtPickupEmpty() && !obs.AtDropoffLoaded() && obs.Target() == Some(goal)
    requires d in BestMoves(obs.robotPos, goal, env.isWall)
    ensures Decide(cfg, env, s, obs, rand).action == Move(d)
  {
    rand := ChooseReaches(BestMoves(obs.robotPos, goal, env.isWall), d);
  }

  /** WAIT only when no move improves and no valid move is found; and,
      with a goal away from pickup and dropoff duties, exactly then. */
  lemma WaitOnlyWhenStuck(cfg: Config, env: EnvView, s: State, obs: Observation, rand: nat)
    requires Usable(obs.localGrid)
    ensures Decide(cfg, env, s, obs, rand).action == Wait ==>
      && RandomValidMove(obs.localGrid, NextHistory(cfg, s, obs), env, rand).None?
      && (obs.Target().Some? ==> BestMoves(obs.robotPos, obs.Target().value, env.isWall) == [])
    ensures && !obs.AtPickupEmpty() && !obs.AtDropoffLoaded() && obs.Target().Some?
            && BestMoves(obs.robotPos, obs.Target().value, env.isWall) == []
            && RandomValidMove(obs.localGrid, NextHistory(cfg, s, obs), env, rand).None?
            ==> Decide(cfg, env, s, obs, rand).action == Wait
  {
    var h := NextHistory(cfg, s, obs);
    var armed := Armed(cfg, s, obs.robotPos);
    PursueWaitsOnlyWhenStuck(env, obs, h, armed - 1, rand);
    PursueWaitsOnlyWhenStuck(env, obs, h, armed, rand);
  }

  /** The same for the goal-seeking part alone. */
  lemma PursueWaitsOnlyWhenStuck(env: EnvView, obs: Observation, h: seq<Pos>, counter: int, rand: nat)
    requires Usable(obs.localGrid)
    ensures Pursue(env, obs, h, counter, rand).action == Wait ==>
      && RandomValidMove(obs.localGrid, h, env, rand).None?
      && (obs.Target().Some? ==> BestMoves(obs.robotPos, obs.Target().value, env.isWall) == [])
    ensures && !obs.AtPickupEmpty() && !obs.AtDropoffLoaded() && obs.Target().Some?
            && BestMoves(obs.robotPos, obs.Target().value, env.isWall) == []
            && RandomValidMove(obs.localGrid, h, env, rand).None?
            ==> Pursue(env, obs, h, counter, rand).action == Wait
  {
  }

  /** When goal-seeking falls back on `_random_valid_move` (no goal, or no
      improving move), the agent returns the move drawn; with none drawn it
      WAITs when it has a goal and takes a random action when it has none. */
  lemma PursueFallbackSound(env: EnvView, obs: Observation, h: seq<Pos>, counter: int, rand: nat)
    requires Usable(obs.localGrid)
    requires !obs.AtPickupEmpty() && !obs.AtDropoffLoaded()
    requires obs.Target().None? || BestMoves(obs.robotPos, obs.Target().value, env.isWall) == []
    ensures var mv := RandomValidMove(obs.localGrid, h, env, rand);
            mv.Some? ==> Pursue(env, obs, h, counter, rand).action == Move(mv.value)
    ensures var mv := RandomValidMove(obs.localGrid, h, env, rand);
            mv.None? && obs.Target().Some? ==> Pursue(env, obs, h, counter, rand).action == Wait
    ensures var mv := RandomValidMove(obs.localGrid, h, env, rand);
            mv.None? && obs.Target().None? ==> Pursue(env, obs, h, counter, rand).action == Choose(Actions, rand)
  {
  }

  /** The local window and the environment agree about the four neighbours. */
  predicate WindowAgrees(g: seq<string>, p: Pos, isWall: Pos -> bool)
    requires Usable(g)
  {
    |g| > 0 ==> forall d :: WallAt(g, d) <==> isWall(Neighbour(p, d))
  }

  /** With a window that agrees with the environment around `p`, and the
      environment check made from `p`, a random valid move avoids walls, and
      none is found only when all four neighbours are walls. */
  lemma RandomMoveAvoidsWalls(g: seq<string>, h: seq<Pos>, env: EnvView, p: Pos, rand: nat)
    requires Usable(g)
    requires WindowAgrees(g, p, env.isWall)
    requires FallbackOrigin(h, env) == p
    ensures var mv := RandomValidMove(g, h, env, rand);
            && (mv.Some? ==> !env.isWall(Neighbour(p, mv.value)))
            && (mv.None? ==> forall d :: env.isWall(Neighbour(p, d)))
  {
  }

  /** The goal-seeking part moves into a wall only when every neighbour is one. */
  lemma PursueAvoidsWalls(env: EnvView, obs: Observation, h: seq<Pos>, counter: int, rand: nat)
    requires Usable(obs.localGrid)
    requires WindowAgrees(obs.localGrid, obs.robotPos, env.isWall)
    requires FallbackOrigin(h, env) == obs.robotPos
    ensures var a := Pursue(env, obs, h, counter, rand).action;
            a.Move? ==>
              !env.isWall(Neighbour(obs.robotPos, a.dir))
              || forall d :: env.isWall(Neighbour(obs.robotPos, d))
  {
    var p := obs.robotPos;
    RandomMoveAvoidsWalls(obs.localGrid, h, env, p, rand);
    if !obs.AtPickupEmpty() && !obs.AtDropoffLoaded() && obs.Target().Some? {
      var best := BestMoves(p, obs.Target().value, env.isWall);
      if |best| > 0 {
        var d := Choose(best, rand);
        assert !env.isWall(Neighbour(p, d));
      }
    }
  }

  /** With a non-empty history and a window that agrees with the environment,
      the agent never walks into a wall unless every neighbour is one. */
  lemma MovesAvoidWalls(cfg: Config, env: EnvView, s: State, obs: Observation, rand: nat)
    requires Usable(obs.localGrid)
    requires cfg.historyLen > 0
    requires WindowAgrees(obs.localGrid, obs.robotPos, env.isWall)
    ensures var a := Decide(cfg, env, s, obs, rand).action;
            a.Move? ==>
              !env.isWall(Neighbour(obs.robotPos, a.dir))
              || forall d :: env.isWall(Neighbour(obs.robotPos, d))
  {
    var h := NextHistory(cfg, s, obs);
    var armed := Armed(cfg, s, obs.robotPos);
    assert FallbackOrigin(h, env) == obs.robotPos;
    RandomMoveAvoidsWalls(obs.localGrid, h, env, obs.robotPos, rand);
    PursueAvoidsWalls(env, obs, h, armed - 1, rand);
    PursueAvoidsWalls(env, obs, h, armed, rand);
  }

  /** Every free neighbour is drawn by `_random_valid_move` for some value
      of the random source: an open window cell when the window offers one,
      otherwise a non-wall neighbour of the fallback origin. */
  lemma RandomValidMoveReaches(g: seq<string>, h: seq<Pos>, env: EnvView, d: Dir) returns (rand: nat)
    requires Usable(g)
    requires (|g| > 0 && !WallAt(g, d))
          || ((|g| == 0 || forall e :: WallAt(g, e)) && !env.isWall(Neighbour(FallbackOrigin(h, env), d)))
    ensures RandomValidMove(g, h, env, rand) == Some(d)
  {
    EveryDirListed(MoveOrder);
    if |g| > 0 && !WallAt(g, d) {
      rand := ChooseReaches(OpenMoves(g), d);
    } else {
      assert |g| == 0 || |OpenMoves(g)| == 0;
      rand := ChooseReaches(FreeIn(MoveOrder, FallbackOrigin(h, env), env.isWall), d);
    }
  }

  /** During an escape, every move `_random_valid_move` can offer is taken
      for some value of the random source. */
  lemma EscapeReaches(cfg: Config, env: EnvView, s: State, obs: Observation, d: Dir) returns (rand: nat)
    requires Usable(obs.localGrid)
    requires Armed(cfg, s, obs.robotPos) > 0
    requires var g := obs.localGrid;
      (|g| > 0 && !WallAt(g, d))
      || ((|g| == 0 || forall e :: WallAt(g, e))
          && !env.isWall(Neighbour(FallbackOrigin(NextHistory(cfg, s, obs), env), d)))
    ensures Decide(cfg, env, s, obs, rand).action == Move(d)
  {
    rand := RandomValidMoveReaches(obs.localGrid, NextHistory(cfg, s, obs), env, d);
  }

  /** With no goal and no free neighbour anywhere, every action of the
      vocabulary is taken for some value of the random source. */
  lemma NoGoalFallbackReaches(env: EnvView, obs: Observation, h: seq<Pos>, counter: int, a: Action)
    returns (rand: nat)
    requires Usable(obs.localGrid)
    requires !obs.AtPickupEmpty() && !obs.AtDropoffLoaded() && obs.Target().None?
    requires |obs.localGrid| == 0 || forall e :: WallAt(obs.localGrid, e)
    requires forall e :: env.isWall(Neighbour(FallbackOrigin(h, env), e))
    ensures Pursue(env, obs, h, counter, rand).action == a
  {
    ActionsComplete(a);
    rand := ChooseReaches(Actions, a);
  }

  /** When goal-seeking falls back on `_random_valid_move` (no goal, or no
      improving move), every move it can offer is taken for some value of
      the random source. */
  lemma PursueFallbackReaches(env: EnvView, obs: Observation, h: seq<Pos>, counter: int, d: Dir)
    returns (rand: nat)
    requires Usable(obs.localGrid)
    requires !obs.AtPickupEmpty() && !obs.AtDropoffLoaded()
    requires obs.Target().None? || BestMoves(obs.robotPos, obs.Target().value, env.isWall) == []
    requires var g := obs.localGrid;
      (|g| > 0 && !WallAt(g, d))
      || ((|g| == 0 || forall e :: WallAt(g, e)) && !env.isWall(Neighbour(FallbackOrigin(h, env), d)))
    ensures Pursue(env, obs, h, counter, rand).action == Move(d)
  {
    rand := RandomValidMoveReaches(obs.localGrid, h, env, d);
  }
}

=== FILE: reflex.dfy ===
/** ReflexAgent: a stateless rule-priority policy. First matching rule wins:
    PICK at the pickup cell when empty-handed, DROP at the dropoff cell when
    carrying, a move towards the target that the local window shows open,
    and otherwise a random draw from the valid actions.
 */
module Reflex {
  import opened World
  import opened Window

  /** The orders in which `_get_direction_to_target` lists its candidates. */
  const PrimaryOrder: seq<Dir> := [N, S, W, E]
  const SecondaryOrder: seq<Dir> := [W, E, N, S]
  const LastResortOrder: seq<Dir> := [N, S, E, W]

  /** Moving in `d` shrinks the row offset `dr` or column offset `dc` to the target. */
  predicate Reduces(d: Dir, dr: int, dc: int) {
    match d
    case N => dr < 0
    case S => dr > 0
    case W => dc < 0
    case E => dc > 0
  }

  /** Place of a direction in the primary order. */
  function Rank(d: Dir): (k: nat)
    ensures k < |PrimaryOrder| && PrimaryOrder[k] == d
  {
    match d
    case N => 0
    case S => 1
    case W => 2
    case E => 3
  }

  /** The candidate list the agent builds by visiting `order` and keeping,
      with weight `w`, each direction that is towards the target and open. */
  function Candidates(order: seq<Dir>, g: seq<string>, dr: int, dc: int, w: int): (r: seq<(Dir, int)>)
    requires Square(g)
    ensures forall p :: p in r <==> p.0 in order && p.1 == w && Reduces(p.0, dr, dc) && !Blocked(g, p.0)
    decreases |order|
  {
    if order == [] then []
    else
      var d := order[0];
      (if Reduces(d, dr, dc) && !Blocked(g, d) then [(d, w)] else [])
      + Candidates(order[1..], g, dr, dc, w)
  }

  /** Primary candidates, weight 2. */
  function Primary(g: seq<string>, dr: int, dc: int): (r: seq<(Dir, int)>)
    requires Square(g)
    ensures forall x :: x in r <==> x.1 == 2 && Reduces(x.0, dr, dc) && !Blocked(g, x.0)
  {
    EveryDirListed(PrimaryOrder);
    Candidates(PrimaryOrder, g, dr, dc, 2)
  }

  /** Secondary candidates, weight 1, built under the very guards of the
      primary list. */
  function Secondary(g: seq<string>, dr: int, dc: int): (r: seq<(Dir, int)>)
    requires Square(g)
    ensures forall x :: x in r <==> x.1 == 1 && Reduces(x.0, dr, dc) && !Blocked(g, x.0)
  {
    EveryDirListed(SecondaryOrder);
    Candidates(SecondaryOrder, g, dr, dc, 1)
  }

  /** The directions of `order` that are not blocked, in that order. */
  function OpenIn(order: seq<Dir>, g: seq<string>): (r: seq<Dir>)
    requires Square(g)
    ensures forall d :: d in r <==> d in order && !Blocked(g, d)
    decreases |order|
  {
    if order == [] then []
    else (if !Blocked(g, order[0]) then [order[0]] else []) + OpenIn(order[1..], g)
  }

  /** Last-resort candidates: every unblocked direction. */
  function AnyOpen(g: seq<string>): (r: seq<Dir>)
    requires Square(g)
    ensures forall d :: d in r <==> !Blocked(g, d)
  {
    EveryDirListed(LastResortOrder);
    OpenIn(LastResortOrder, g)
  }

  /** The scan `max` makes: index `best` holds the first greatest weight among
      `xs[..i]`, and only a strictly greater weight replaces it. */
  function MaxFrom(xs: seq<(Dir, int)>, best: nat, i: nat): (m: nat)
    requires best < i <= |xs|
    requires forall j :: 0 <= j < i ==> xs[j].1 <= xs[best].1
    requires forall j :: 0 <= j < best ==> xs[j].1 < xs[best].1
    ensures m < |xs|
    ensures forall j :: 0 <= j < |xs| ==> xs[j].1 <= xs[m].1
    ensures forall j :: 0 <= j < m ==> xs[j].1 < xs[m].1
    decreases |xs| - i
  {
    if i == |xs| then best
    else MaxFrom(xs, if xs[i].1 > xs[best].1 then i else best, i + 1)
  }

  /** `max(xs, key=weight)`: an element of greatest weight, the first one
      when several tie. */
  function MaxByWeight(xs: seq<(Dir, int)>): (r: (Dir, int))
    requires |xs| > 0
    ensures r in xs
    ensures forall x :: x in xs ==> x.1 <= r.1
    ensures (forall x :: x in xs ==> x.1 == xs[0].1) ==> r == xs[0]
    ensures exists m :: 0 <= m < |xs| && xs[m] == r && forall j :: 0 <= j < m ==> xs[j].1 < r.1
  {
    var m := MaxFrom(xs, 0, 1);
    assert m > 0 ==> xs[0].1 < xs[m].1;
    xs[m]
  }

  /** Both lists are built under the same four guards, so they offer the
      same directions. */
  lemma SecondaryMatchesPrimary(g: seq<string>, dr: int, dc: int)
    requires Square(g)
    ensures forall d :: (d, 1) in Secondary(g, dr, dc) <==> (d, 2) in Primary(g, dr, dc)
  {
    var sec := Secondary(g, dr, dc);
    var pri := Primary(g, dr, dc);
    forall d: Dir
      ensures (d, 1) in sec <==> (d, 2) in pri
    {
      assert d in PrimaryOrder && d in SecondaryOrder by {
        match d { case N => case S => case W => case E => }
      }
    }
  }

  /** A candidate list is empty exactly when no direction of its order is
      both towards the target and open. */
  lemma {:induction false} CandidatesEmpty(order: seq<Dir>, g: seq<string>, dr: int, dc: int, w: int)
    requires Square(g)
    ensures |Candidates(order, g, dr, dc, w)| == 0
        <==> forall d :: d in order ==> !(Reduces(d, dr, dc) && !Blocked(g, d))
    decreases |order|
  {
    if order != [] {
      CandidatesEmpty(order[1..], g, dr, dc, w);
      assert order == [order[0]] + order[1..];
    }
  }

  /** Hence the secondary list is empty whenever the primary list is. */
  lemma NoPrimaryNoSecondary(g: seq<string>, dr: int, dc: int)
    requires Square(g)
    requires |Primary(g, dr, dc)| == 0
    ensures |Secondary(g, dr, dc)| == 0
  {
    CandidatesEmpty(PrimaryOrder, g, dr, dc, 2);
    CandidatesEmpty(SecondaryOrder, g, dr, dc, 1);
    EveryDirListed(PrimaryOrder);
  }

  /** The first two steps of `_get_direction_to_target`: the heaviest primary
      candidate, if there is one. All primary weights are equal, so `max`
      returns the head of the list. */
  function PrimaryPick(g: seq<string>, dr: int, dc: int): (r: Option<Dir>)
    requires Square(g)
    ensures r.Some? ==> Reduces(r.value, dr, dc) && !Blocked(g, r.value)
    ensures r.None? <==> |Primary(g, dr, dc)| == 0
    ensures r.Some? ==> |Primary(g, dr, dc)| > 0 && r.value == Primary(g, dr, dc)[0].0
  {
    var primary := Primary(g, dr, dc);
    if |primary| > 0 then
      var best := MaxByWeight(primary);
      assert primary[0] in primary;
      Some(best.0)
    else None
  }

  /** The last resort of `_get_direction_to_target`: a random unblocked
      direction, or None when all four are blocked. */
  function LastResort(g: seq<string>, rand: nat): (r: Option<Dir>)
    requires Square(g)
    ensures r.Some? ==> !Blocked(g, r.value)
    ensures r.None? <==> forall d :: Blocked(g, d)
  {
    var open := AnyOpen(g);
    if |open| > 0 then
      assert open[0] in open;
      Some(Choose(open, rand))
    else None
  }

  /** The body of `_get_direction_to_target` past the at-target check: the
      first primary candidate, else (the secondary list being empty too) a
      random unblocked direction. */
  function Steer(g: seq<string>, dr: int, dc: int, rand: nat): (r: Option<Dir>)
    requires Square(g)
    ensures r.Some? ==> !Blocked(g, r.value)
    ensures r.None? <==> forall d :: Blocked(g, d)
    ensures |Primary(g, dr, dc)| > 0 ==> r == Some(Primary(g, dr, dc)[0].0)
    ensures |Primary(g, dr, dc)| == 0 ==> r == LastResort(g, rand)
  {
    var primary := PrimaryPick(g, dr, dc);
    if primary.Some? then primary
    else
      var secondary := Secondary(g, dr, dc);
      if |secondary| > 0 then
        // The agent draws from the secondary list here; it is empty
        // whenever the primary list is, so this branch is dead.
        var pick := Choose(secondary, rand).0;
        NoPrimaryNoSecondary(g, dr, dc);
        assert false;
        Some(pick)
      else LastResort(g, rand)
  }

  /** `_get_direction_to_target`: the move towards `target` chosen from the
      window, or None. */
  function DirectionToTarget(cur: Pos, target: Pos, g: seq<string>, rand: nat): (r: Option<Dir>)
    requires Square(g)
    ensures r.Some? ==> !Blocked(g, r.value)
    ensures r.None? <==> cur == target || forall d :: Blocked(g, d)
  {
    var dr := target.row - cur.row;
    var dc := target.col - cur.col;
    if dr == 0 && dc == 0 then None else Steer(g, dr, dc, rand)
  }

  /** Move actions for the directions of `ds`, in the same order. */
  function Moves(ds: seq<Dir>): (r: seq<Action>)
    ensures forall a :: a in r <==> a.Move? && a.dir in ds
    decreases |ds|
  {
    if ds == [] then [] else [Move(ds[0])] + Moves(ds[1..])
  }

  /** `_get_valid_moves`: the open neighbours plus the three non-moving actions. */
  function ValidMoves(g: seq<string>): (r: seq<Action>)
    requires Full(g)
    ensures Wait in r && Pick in r && Drop in r
    ensures forall d :: Move(d) in r <==> !WallAt(g, d)
  {
    Moves(OpenMoves(g)) + [Wait, Pick, Drop]
  }

  /** `ReflexAgent.decide`. The final WAIT is kept as written; the valid-move
      list is never empty, so it is never taken. */
  function Decide(obs: Observation, rand: nat): (a: Action)
    requires Full(obs.localGrid)
    ensures obs.AtPickupEmpty() ==> a == Pick
    ensures obs.AtDropoffLoaded() ==> a == Drop
    ensures a.Move? ==> !WallAt(obs.localGrid, a.dir)
  {
    var g := obs.localGrid;
    if obs.AtPickupEmpty() then Pick
    else if obs.AtDropoffLoaded() then Drop
    else
      var dir := match obs.Target()
        case Some(t) => DirectionToTarget(obs.robotPos, t, g, rand)
        case None => None;
      if dir.Some? then
        Move(dir.value)
      else
        var valid := ValidMoves(g);
        if |valid| > 0 then Choose(valid, rand) else Wait
  }

  // ---------------------------------------------------------------------
  // Independent description of the decision: the set of actions the agent
  // may take, and the proof that Decide draws from exactly that set.

  /** Open directions towards `t` as the window shows them. */
  function Toward(cur: Pos, t: Pos, g: seq<string>): set<Dir>
    requires Square(g)
  {
    set d | d in AllDirs && Reduces(d, t.row - cur.row, t.col - cur.col) && !Blocked(g, d)
  }

  function Unblocked(g: seq<string>): set<Dir>
    requires Square(g)
  {
    set d | d in AllDirs && !Blocked(g, d)
  }

  /** The fallback choices: every open neighbour and the three non-moving actions. */
  function FallbackChoices(g: seq<string>): set<Action>
    requires Full(g)
  {
    (set d | d in AllDirs && !WallAt(g, d) :: Move(d)) + {Wait, Pick, Drop}
  }

  /** The actions the reflex agent may take on `obs`, by rule priority. */
  function Options(obs: Observation): set<Action>
    requires Full(obs.localGrid)
  {
    var g := obs.localGrid;
    if obs.AtPickupEmpty() then {Pick}
    else if obs.AtDropoffLoaded() then {Drop}
    else match obs.Target()
      case None => FallbackChoices(g)
      case Some(t) =>
        var toward := Toward(obs.robotPos, t, g);
        if toward != {} then
          set d | d in toward && (forall e :: e in toward ==> Rank(d) <= Rank(e)) :: Move(d)
        else if Unblocked(g) != {} then
          set d | d in Unblocked(g) :: Move(d)
        else FallbackChoices(g)
  }

  /** A primary move lowers the Manhattan distance to the target by one, and
      only the primary directions do. */
  lemma ReducesIffCloser(cur: Pos, t: Pos, d: Dir)
    ensures Reduces(d, t.row - cur.row, t.col - cur.col)
        <==> Dist(Neighbour(cur, d), t) + 1 == Dist(cur, t)
  {
  }

  /** The head of a candidate list is the first direction of `order` that is
      towards the target and open. */
  lemma {:induction false} CandidatesHead(order: seq<Dir>, g: seq<string>, dr: int, dc: int, w: int, i: nat)
    requires Square(g)
    requires i < |order|
    requires Reduces(order[i], dr, dc) && !Blocked(g, order[i])
    requires forall j :: 0 <= j < i ==> !(Reduces(order[j], dr, dc) && !Blocked(g, order[j]))
    ensures |Candidates(order, g, dr, dc, w)| > 0
    ensures Candidates(order, g, dr, dc, w)[0] == (order[i], w)
    decreases i
  {
    if i > 0 {
      CandidatesHead(order[1..], g, dr, dc, w, i - 1);
    }
  }

  /** When some direction towards the target is open, the choice is fixed:
      the first of N, S, W, E that is open and towards the target, whatever
      the random source says; it brings the robot one step closer. */
  lemma FirstTowardWins(cur: Pos, t: Pos, g: seq<string>, rand: nat, d: Dir)
    requires Square(g)
    requires d in Toward(cur, t, g)
    requires forall e :: e in Toward(cur, t, g) ==> Rank(d) <= Rank(e)
    ensures DirectionToTarget(cur, t, g, rand) == Some(d)
    ensures Dist(Neighbour(cur, d), t) + 1 == Dist(cur, t)
  {
    var dr := t.row - cur.row;
    var dc := t.col - cur.col;
    forall j | 0 <= j < Rank(d)
      ensures !(Reduces(PrimaryOrder[j], dr, dc) && !Blocked(g, PrimaryOrder[j]))
    {
      AllDirsComplete(PrimaryOrder[j]);
      assert Rank(PrimaryOrder[j]) == j;
    }
    CandidatesHead(PrimaryOrder, g, dr, dc, 2, Rank(d));
    DirectionIsSteer(cur, t, g, rand);
    ReducesIffCloser(cur, t, d);
  }

  /** With no open direction towards the target, the primary list is empty. */
  lemma NoTowardNoPrimary(cur: Pos, t: Pos, g: seq<string>)
    requires Square(g)
    requires Toward(cur, t, g) == {}
    ensures |Primary(g, t.row - cur.row, t.col - cur.col)| == 0
  {
    forall d: Dir
      ensures !(Reduces(d, t.row - cur.row, t.col - cur.col) && !Blocked(g, d))
    {
      AllDirsComplete(d);
      assert d !in Toward(cur, t, g);
    }
  }

  lemma AllBlocked(g: seq<string>)
    requires Square(g)
    requires Unblocked(g) == {}
    ensures forall d :: Blocked(g, d)
  {
    forall d: Dir
      ensures Blocked(g, d)
    {
      AllDirsComplete(d);
      assert d !in Unblocked(g);
    }
  }

  lemma FallbackSound(g: seq<string>, rand: nat)
    requires Full(g)
    ensures Choose(ValidMoves(g), rand) in FallbackChoices(g)
  {
    var a := Choose(ValidMoves(g), rand);
    if a.Move? {
      AllDirsComplete(a.dir);
    }
  }

  /** The open direction towards the target that comes first in N, S, W, E. */
  function FirstOf(ds: set<Dir>): (d: Dir)
    requires ds != {}
    ensures d in ds && forall e :: e in ds ==> Rank(d) <= Rank(e)
  {
    if N in ds then N
    else if S in ds then S
    else if W in ds then W
    else
      var e :| e in ds;
      assert e == E;
      E
  }

  /** `Decide` only ever returns an action of `Options`. */
  lemma DecideSound(obs: Observation, rand: nat)
    requires Full(obs.localGrid)
    ensures Decide(obs, rand) in Options(obs)
  {
    var g := obs.localGrid;
    if obs.AtPickupEmpty() || obs.AtDropoffLoaded() {
    } else if obs.Target().None? {
      FallbackSound(g, rand);
    } else {
      var t := obs.Target().value;
      assert obs.robotPos != t;
      var toward := Toward(obs.robotPos, t, g);
      if toward != {} {
        var d := FirstOf(toward);
        FirstTowardWins(obs.robotPos, t, g, rand, d);
      } else {
        NoTowardNoPrimary(obs.robotPos, t, g);
        if Unblocked(g) != {} {
          var d := DirectionToTarget(obs.robotPos, t, g, rand).value;
          AllDirsComplete(d);
        } else {
          AllBlocked(g);
          FallbackSound(g, rand);
        }
      }
    }
  }

  /** Every action of `Options` is taken for some value of the random source. */
  lemma DecideComplete(obs: Observation, a: Action) returns (rand: nat)
    requires Full(obs.localGrid)
    requires a in Options(obs)
    ensures Decide(obs, rand) == a
  {
    var g := obs.localGrid;
    if obs.AtPickupEmpty() || obs.AtDropoffLoaded() {
      rand := 0;
    } else if obs.Target().None? {
      rand := ChooseReaches(ValidMoves(g), a);
    } else {
      rand := SteerComplete(obs, obs.Target().value, a);
    }
  }

  /** Past the first two rules, with a target known, `Decide` follows
      `DirectionToTarget` and falls back on the valid-move list. */
  lemma DecideSteers(obs: Observation, t: Pos, rand: nat)
    requires Full(obs.localGrid)
    requires !obs.AtPickupEmpty() && !obs.AtDropoffLoaded() && obs.Target() == Some(t)
    ensures DirectionToTarget(obs.robotPos, t, obs.localGrid, rand).Some? ==>
      Decide(obs, rand) == Move(DirectionToTarget(obs.robotPos, t, obs.localGrid, rand).value)
    ensures DirectionToTarget(obs.robotPos, t, obs.localGrid, rand).None? ==>
      Decide(obs, rand) == Choose(ValidMoves(obs.localGrid), rand)
  {
  }

  lemma SteerComplete(obs: Observation, t: Pos, a: Action) returns (rand: nat)
    requires Full(obs.localGrid)
    requires !obs.AtPickupEmpty() && !obs.AtDropoffLoaded() && obs.Target() == Some(t)
    requires a in Options(obs)
    ensures Decide(obs, rand) == a
  {
    var g := obs.localGrid;
    var cur := obs.robotPos;
    var toward := Toward(cur, t, g);
    if toward != {} {
      var d :| d in toward && (forall e :: e in toward ==> Rank(d) <= Rank(e)) && a == Move(d);
      rand := 0;
      FirstTowardWins(cur, t, g, rand, d);
      DecideSteers(obs, t, rand);
    } else if Unblocked(g) != {} {
      var d :| d in Unblocked(g) && a == Move(d);
      rand := SteerOpenComplete(cur, t, g, d);
      DecideSteers(obs, t, rand);
    } else {
      AllBlocked(g);
      rand := ChooseReaches(ValidMoves(g), a);
      DecideSteers(obs, t, rand);
    }
  }

  /** With nothing open towards the target, every unblocked direction is
      drawn for some value of the random source. */
  lemma SteerOpenComplete(cur: Pos, t: Pos, g: seq<string>, d: Dir) returns (rand: nat)
    requires Square(g)
    requires cur != t
    requires Toward(cur, t, g) == {}
    requires !Blocked(g, d)
    ensures DirectionToTarget(cur, t, g, rand) == Some(d)
  {
    var dr := t.row - cur.row;
    var dc := t.col - cur.col;
    NoTowardNoPrimary(cur, t, g);
    rand := ChooseReaches(AnyOpen(g), d);
    LastResortReaches(g, dr, dc, rand);
    DirectionIsSteer(cur, t, g, rand);
  }

  /** Away from the target, `_get_direction_to_target` is its steering part. */
  lemma DirectionIsSteer(cur: Pos, t: Pos, g: seq<string>, rand: nat)
    requires Square(g)
    requires t.row - cur.row != 0 || t.col - cur.col != 0
    ensures DirectionToTarget(cur, t, g, rand) == Steer(g, t.row - cur.row, t.col - cur.col, rand)
  {
  }

  /** With the primary list empty, the steering part returns the last
      resort's draw. */
  lemma LastResortReaches(g: seq<string>, dr: int, dc: int, rand: nat)
    requires Square(g)
    requires |Primary(g, dr, dc)| == 0
    requires |AnyOpen(g)| > 0
    ensures Steer(g, dr, dc, rand) == Some(Choose(AnyOpen(g), rand))
  {
  }
}

=== FILE: run_episode.dfy ===
/** The pure helpers of the single-episode runner: the Manhattan distance
    it logs each step, and the success verdict it reports at the end.
 */
module RunEpisode {
  import opened World

  /** `manhattan_distance`: 0 when either position is unknown. */
  function ManhattanDistance(p1: Option<Pos>, p2: Option<Pos>): (r: nat)
    ensures p1.None? || p2.None? ==> r == 0
    ensures p1.Some? && p2.Some? ==> (r == 0 <==> p1 == p2)
  {
    match (p1, p2)
    case (Some(a), Some(b)) => Dist(a, b)
    case _ => 0
  }

  lemma ManhattanSymmetric(p1: Option<Pos>, p2: Option<Pos>)
    ensures ManhattanDistance(p1, p2) == ManhattanDistance(p2, p1)
  {
  }

  /** The episode's success flag: the item is no longer carried and the
      robot stands on the dropoff cell. */
  predicate Success(obs: Observation)
    ensures Success(obs) ==> obs.dropoffPos.Some? && !obs.hasItem
  {
    !obs.hasItem && Some(obs.robotPos) == obs.dropoffPos
  }

  /** Success is being empty-handed at distance 0 from a known dropoff. */
  lemma SuccessIsDeliveredAtDropoff(obs: Observation)
    ensures Success(obs) <==>
      !obs.hasItem && obs.dropoffPos.Some? && ManhattanDistance(Some(obs.robotPos), obs.dropoffPos) == 0
  {
  }
}

=== FILE: window.dfy ===
/** The local window: a square block of cell symbols centred on the robot,
    rows as strings, '#' for a wall or for a cell outside the warehouse.
    Two ways of reading it appear in the agents: the reflex agent's
    bounds-safe `is_blocked`, and the direct `!= '#'` test on the four
    neighbours of the centre that every agent's valid-move helper uses.
 */
module Window {
  import opened World

  predicate Square(g: seq<string>) {
    forall i :: 0 <= i < |g| ==> |g[i]| == |g|
  }

  /** Large enough that all four neighbours of the centre lie inside. */
  predicate Full(g: seq<string>) {
    Square(g) && |g| >= 3
  }

  /** Missing (empty) or full; a non-empty window narrower than 3 makes the
      direct neighbour test index past the end. */
  predicate Usable(g: seq<string>) {
    Square(g) && (|g| == 0 || |g| >= 3)
  }

  function Centre(g: seq<string>): nat {
    |g| / 2
  }

  /** Window coordinates of the centre's neighbour in direction `d`. */
  function Offset(g: seq<string>, d: Dir): Pos {
    Neighbour(Pos(Centre(g), Centre(g)), d)
  }

  /** The reflex agent's `is_blocked`: an index outside the window counts
      as blocked, the column bound being the width of row 0. On a missing
      window that is every neighbour. */
  predicate Blocked(g: seq<string>, d: Dir)
    requires Square(g)
    ensures !(0 <= Offset(g, d).row < |g| && 0 <= Offset(g, d).col < |g|) ==> Blocked(g, d)
    ensures |g| == 0 ==> Blocked(g, d)
  {
    var c := Offset(g, d);
    c.row < 0 || c.row >= |g| || c.col < 0 || c.col >= |g[0]| || g[c.row][c.col] == '#'
  }

  /** The direct test `local_grid[r][c] == '#'` on a neighbour of the centre.
      On a full window every neighbour index is in range, so it agrees with
      `is_blocked`. */
  predicate WallAt(g: seq<string>, d: Dir)
    requires Full(g)
    ensures WallAt(g, d) <==> Blocked(g, d)
  {
    var c := Offset(g, d);
    g[c.row][c.col] == '#'
  }

  /** The order in which the valid-move helpers test the neighbours. */
  const NeighbourOrder: seq<Dir> := [N, S, W, E]

  /** The directions of `order` whose window cell is not '#', in that order. */
  function OpenAmong(order: seq<Dir>, g: seq<string>): (r: seq<Dir>)
    requires Full(g)
    ensures forall d :: d in r <==> d in order && !WallAt(g, d)
    ensures |r| <= |order|
    decreases |order|
  {
    if order == [] then []
    else (if !WallAt(g, order[0]) then [order[0]] else []) + OpenAmong(order[1..], g)
  }

  /** The open neighbours in the order N, S, W, E. */
  function OpenMoves(g: seq<string>): (r: seq<Dir>)
    requires Full(g)
    ensures forall d :: d in r <==> !WallAt(g, d)
    ensures |r| <= 4
  {
    EveryDirListed(NeighbourOrder);
    OpenAmong(NeighbourOrder, g)
  }
}

=== FILE: world.dfy ===
/** Shared vocabulary of the warehouse agents: grid cells, the four compass
    directions and their row/column deltas, the closed action vocabulary,
    the observation record a policy receives, the Manhattan metric the
    policies steer by, and the oracle that stands for `random.choice`.
 */
module World {

  datatype Option<+T> = None | Some(value: T)

  /** A grid cell, row first; row numbers grow towards the South. */
  datatype Pos = Pos(row: int, col: int)

  datatype Dir = N | S | W | E

  /** The action symbols N, S, E, W, WAIT, PICK and DROP. */
  datatype Action = Move(dir: Dir) | Wait | Pick | Drop

  const AllDirs: set<Dir> := {N, S, W, E}

  /** The environment's action list. Its order is not known here; only
      membership matters to the agents that draw from it. */
  const Actions: seq<Action> := [Move(N), Move(E), Move(S), Move(W), Wait, Pick, Drop]

  /** The environment's move deltas, as the reflex agent's window offsets show. */
  function Delta(d: Dir): Pos {
    match d
    case N => Pos(-1, 0)
    case S => Pos(1, 0)
    case W => Pos(0, -1)
    case E => Pos(0, 1)
  }

  function Neighbour(p: Pos, d: Dir): Pos {
    Pos(p.row + Delta(d).row, p.col + Delta(d).col)
  }

  function Abs(x: int): nat {
    if x < 0 then -x else x
  }

  /** Manhattan distance |Δrow| + |Δcol|. */
  function Dist(a: Pos, b: Pos): nat {
    Abs(a.row - b.row) + Abs(a.col - b.col)
  }

  /** The snapshot handed to a policy on every step. A missing `local_grid`
      and an empty one are both the empty sequence. */
  datatype Observation = Observation(
    robotPos: Pos,
    hasItem: bool,
    pickupPos: Option<Pos>,
    dropoffPos: Option<Pos>,
    battery: int,
    steps: int,
    localGrid: seq<string>)
  {
    /** The cell the robot is heading for: dropoff when carrying, pickup otherwise. */
    function Target(): Option<Pos> {
      if hasItem then dropoffPos else pickupPos
    }

    predicate AtPickupEmpty() {
      pickupPos == Some(robotPos) && !hasItem
    }

    predicate AtDropoffLoaded() {
      dropoffPos == Some(robotPos) && hasItem
    }
  }

  /** `random.choice(xs)` with the random source made explicit: the oracle
      value `k` selects the element drawn. */
  function Choose<T>(xs: seq<T>, k: nat): (r: T)
    requires |xs| > 0
    ensures r in xs
  {
    xs[k % |xs|]
  }

  /** Every element of a non-empty list is drawn for some oracle value. */
  lemma ChooseReaches<T>(xs: seq<T>, x: T) returns (k: nat)
    requires x in xs
    ensures Choose(xs, k) == x
  {
    var i :| 0 <= i < |xs| && xs[i] == x;
    k := i;
  }

  lemma AllDirsComplete(d: Dir)
    ensures d in AllDirs
  {
    match d { case N => case S => case W => case E => }
  }

  /** An order in which the agents visit the four directions. */
  predicate ListsAllDirs(order: seq<Dir>) {
    N in order && S in order && W in order && E in order
  }

  lemma EveryDirListed(order: seq<Dir>)
    requires ListsAllDirs(order)
    ensures forall d: Dir :: d in order
  {
    forall d: Dir
      ensures d in order
    {
      match d { case N => case S => case W => case E => }
    }
  }

  lemma ActionsComplete(a: Action)
    ensures a in Actions
  {
    match a
    case Move(d) => match d { case N => case S => case W => case E => }
    case _ =>
  }

  /** One move changes the distance to any cell by exactly one. */
  lemma NeighbourDist(p: Pos, d: Dir, t: Pos)
    ensures Dist(Neighbour(p, d), t) == Dist(p, t) + 1
         || Dist(Neighbour(p, d), t) + 1 == Dist(p, t)
  {
  }

  /** Hence a move that lowers the distance lowers it by exactly one. */
  lemma CloserByOne(p: Pos, t: Pos)
    ensures forall d :: Dist(Neighbour(p, d), t) < Dist(p, t) ==> Dist(Neighbour(p, d), t) + 1 == Dist(p, t)
  {
    forall d: Dir
      ensures Dist(Neighbour(p, d), t) < Dist(p, t) ==> Dist(Neighbour(p, d), t) + 1 == Dist(p, t)
    {
      NeighbourDist(p, d, t);
    }
  }
}
